=== FILE: README.md ===
# Breast-cancer classifier dashboard: a verified model of the page logic

The page (`frontend/src/App.jsx`) first plays a splash sequence of images with timed
fades, then shows a dashboard: the user picks an image, submits it to the prediction
endpoint, and sees the returned label as a coloured pill or an error message; once a
prediction and the classification-report metrics (fetched in the background) are both
present, an analytics panel plots the report.

This project models that logic as pure Dafny:

- `Js` (`js.dfy`): the JavaScript semantics the page relies on, over decoded JSON
  values: truthiness, `??`, property access that throws on `null`, optional chaining,
  `toLowerCase`/`toUpperCase`, `includes`.
- `Splash` (`splash.dfy`): the `SplashSequence` component as a discrete timed state
  machine. The state is `(index, visible)` plus the clock and the live `setTimeout`
  registrations. Events are "the earliest timer fires", "the effect re-runs" and
  "teardown". The effect cleanup is what guarantees that only the current index's
  timers are live.
- `Dashboard` (`dashboard.dfy`): the state record (file, preview, prediction, error,
  loading, metrics) and one pure transition per event. The events are file selection,
  submit, response decoded, request failed, metrics arrived and metrics failed. The
  module also carries the reachable-state invariant and a reference classification of
  response bodies.
- `View` (`view.dfy`): the derived view. It covers the submit button, the badge
  colour, the prediction pill, the error box, whether the analytics panel is shown, and
  the chart values with every missing field read as 0.
- `App` (`app.dfy`): the composition. The splash runs first, the dashboard controls
  exist only after `onFinish`, the metrics request is outstanding from mount, and
  submits go through only while the button is enabled.

Browser I/O is modelled as events. `fetch` + `res.json()` becomes an event carrying the
decoded body, or a failure event. `URL.createObjectURL` becomes a fresh
`ObjectUrl(file, serial)` token. Timers become scheduled entries with due times:
`setTimeout` converts its delay to a 32-bit signed integer and treats a negative result
as 0, and among timers due at the same time the one scheduled first fires first.

The model follows the code at these points, where the behaviour is easy to misread:

- The metrics request starts when `App` mounts. That is during the splash, because all
  of `App`'s hooks run before its `if (showSplash)` return. It is not sent after the
  splash.
- The analytics panel shows when `prediction && metrics` is truthy, not merely
  non-null. A metrics body of `0` or `false` keeps it hidden.
- "Field absent" in the response means "falsy": `{"prediction": ""}` gets the
  fallback message.
- A `null` response body makes `data.prediction` throw. It is then reported as
  "Failed to connect to API", the same as a transport failure.
- The splash schedules both timers when the effect runs: hide at `visibleDuration`,
  change at `visibleDuration + fade`. It is not "hide, then fade". Each delay is what
  `Clamp` gives, and the smaller one fires first, the hide on a tie. So with
  `0 < visibleDuration < 2^31`, a negative `fade` and `visibleDuration + fade >= -2^31`,
  the change fires first and the hide is cancelled.

## Model

| member | source | states |
|---|---|---|
| Js.IncludesIff | frontend/src/App.jsx:150 | the left-to-right `includes` scan answers true exactly when the needle occurs at some position |
| Js.Get | frontend/src/App.jsx:91-93 | for the keys the page reads, `data.key` throws exactly on `null`/`undefined`; otherwise it is the object's own property or `undefined` |
| Splash.Wrap | frontend/src/App.jsx:15-19 | the 32-bit conversion keeps a delay's residue modulo 2^32, in `[0, 2^32)` |
| Splash.Clamp | frontend/src/App.jsx:15-19 | the delay waited is never above 2^31-1 ms, is the requested delay when that fits in 32 bits signed, and for any request is its residue modulo 2^32 when that residue is at most 2^31-1 and 0 otherwise (so 2^32+5 ms waits 5 ms and a negative 32-bit delay waits 0) |
| Splash.Schedule | frontend/src/App.jsx:10-19 | while an image is shown the effect schedules hide at `visibleDuration` then change at `visibleDuration + fade` (negative delays clamped); past the last image a single finish timer at 200 ms |
| Splash.Mount | frontend/src/App.jsx:6-7 | the sequencer starts at index 0, visible, with the timers of index 0 (the finish timer alone when there are no images) |
| Splash.Earliest | frontend/src/App.jsx:15-19 | the timer that fires next is due no later than any other, and every timer scheduled before it is due strictly later |
| Splash.Render | frontend/src/App.jsx:27-39 | nothing is rendered exactly when the index has reached the number of images (or the component is gone); otherwise the current image with its visibility |
| Splash.NextTimerMatchesIndex | frontend/src/App.jsx:9-19 | hide and change can fire only while `index < N`, finish only at `index == N`, and a mounted sequencer always has a timer pending |
| Splash.FireEffect | frontend/src/App.jsx:15-19 | "hide" only clears `visible`; "change" moves to exactly `index + 1`, restores `visible` and schedules the new index's timers; "finish" calls `onFinish` and the sequencer is gone |
| Splash.StepValid | frontend/src/App.jsx:9-25 | every event keeps the reachable-state invariant, moves the index by 0 or 1, and never turns the clock back |
| Splash.RunValid | frontend/src/App.jsx:5-27 | under any interleaving of timers, effect re-runs and teardown: `0 <= index <= N`, the index only grows, `onFinish` runs at most once |
| Splash.NothingAfterUnmount | frontend/src/App.jsx:21-24 | from a reachable state after teardown no transition happens: the cleanup left no timer to fire |
| Splash.HideFires | frontend/src/App.jsx:15-16 | with delays `setTimeout` waits out as given (`Honoured`), the hide timer fires first, `visibleDuration` after the image was shown, fading it out and leaving only the change timer |
| Splash.ChangeFires | frontend/src/App.jsx:16-25 | the change timer moves to the next image, visible again, with that image's timers scheduled from the moment it fired |
| Splash.CycleFires | frontend/src/App.jsx:15-19 | with delays `setTimeout` waits out as given (`Honoured`), two firings take an image's cycle to the next image's cycle, one `visibleDuration + fade` later |
| Splash.LastFire | frontend/src/App.jsx:10-13 | past the last image one firing, 200 ms later, calls `onFinish` and leaves no timer |
| Splash.FinishTimeIs | frontend/src/App.jsx:10-19 | the image-by-image finish time equals `t + m*(visibleDuration+fade) + 200` |
| Splash.PlaysToCompletion | frontend/src/App.jsx:9-27 | with delays `setTimeout` waits out as given (`Honoured`), from image `i`, after `2(N-i)+1` firings `onFinish` has run exactly once, 200 ms after the last fade-out, and no timer is left |
| Splash.OverlongDelayWraps | frontend/src/App.jsx:15-19 | a `visibleDuration` of 2^31 ms wraps to a zero delay: with one image `onFinish` runs at 200 ms, not 2^31+200 ms |
| Splash.FinishesOnce | frontend/src/App.jsx:5-27 | with non-negative durations summing below 2^31 ms and left alone, the sequence calls `onFinish` exactly once at `N*(visibleDuration+fade)+200` ms, then renders nothing and nothing more fires |
| Dashboard.Init | frontend/src/App.jsx:46-51 | the page starts with no file, no preview, no prediction, no error, no metrics, not loading |
| Dashboard.Chosen | frontend/src/App.jsx:69 | a selection is the first file of a non-empty file list, and nothing for a missing or empty list |
| Dashboard.SelectFile | frontend/src/App.jsx:68-75 | selecting a file or none stores it, resets prediction and error, gives a fresh preview URL of that file exactly when a file is selected, and leaves loading and metrics alone |
| Dashboard.Submit | frontend/src/App.jsx:77-88 | without a file nothing changes and nothing is sent; with one, the POST carries that file, loading is set and prediction and error are cleared |
| Dashboard.Respond | frontend/src/App.jsx:89-99 | after a decoded body loading is false and a truthy prediction or a truthy error is always stored; a truthy `prediction` is stored, a truthy `error` is stored (both when both), neither gives "Unexpected API response", a `null` body behaves as a failure |
| Dashboard.Fail | frontend/src/App.jsx:94-99 | a failed request shows "Failed to connect to API", keeps the prediction, clears loading |
| Dashboard.LoadMetrics | frontend/src/App.jsx:56-63 | stored metrics are `data.metrics` when present and non-null, else the body itself; an unreadable body changes nothing; nothing but metrics changes |
| Dashboard.StepValid | frontend/src/App.jsx:46-100 | every event keeps prediction and error either unset or truthy, and the preview the latest URL created from the selected file, present exactly when a file is |
| Dashboard.Reachable | frontend/src/App.jsx:46-100 | every state reachable from the initial one satisfies that invariant |
| Dashboard.SubmitThenRespond | frontend/src/App.jsx:80-99 | a submit followed by its response shows exactly what the body classifies as: the label, the message, both, the fallback, or the connection failure; prediction stays null unless the body carries one |
| Dashboard.SubmitThenFail | frontend/src/App.jsx:80-99 | a submit followed by a failure leaves prediction null, error "Failed to connect to API", loading false |
| Dashboard.SelectionResets | frontend/src/App.jsx:68-75 | selection does not depend on the previous outcome and repeating it keeps prediction and error cleared |
| Dashboard.FrameConditions | frontend/src/App.jsx:46-100 | metrics events change only the metrics, only a selection changes the file and preview, and loading changes only on a submit or a settlement |
| View.ButtonStates | frontend/src/App.jsx:132-134 | the button is disabled while loading (reading "Predicting...") or without a file, and a submit from an enabled button disables it |
| View.BadgeFor | frontend/src/App.jsx:147-151 | the pill is malignant exactly when the lower-cased label contains "malignant" at some position, benign otherwise |
| View.PredictionArea | frontend/src/App.jsx:147-157 | the placeholder exactly when the prediction is falsy; a string prediction shows upper-cased with the `BadgeFor` colour |
| View.ErrorBox | frontend/src/App.jsx:158 | the error box shows exactly when the error is truthy, with that error |
| View.Analytics | frontend/src/App.jsx:163 | the panel renders exactly when prediction and metrics are both truthy, plotting the stored metrics |
| View.OrZero | frontend/src/App.jsx:173 | `v ?? 0` is never nullish, is 0 for a nullish value and the value itself otherwise |
| View.ChartsOf | frontend/src/App.jsx:168-266 | no plotted value is ever `null` or `undefined` |
| View.GaugeReadsAccuracy | frontend/src/App.jsx:173 | the gauge shows the body's numeric `accuracy` times 100, and 0 when the accuracy is missing or `null` |
| View.FieldDefaults | frontend/src/App.jsx:195-265 | a per-class value is the report's own value when present and not null, and 0 when the class or the field is missing |
| View.ReportCarries | frontend/src/App.jsx:56-63 | the endpoint's JSON for a classification report carries accuracy and the four class rows under the keys the page reads |
| View.ChartsOfCarried | frontend/src/App.jsx:168-266 | a body carrying a complete report, whatever else it holds, plots exactly the report's numbers |
| View.ChartsOfEmpty | frontend/src/App.jsx:168-266 | a body holding none of the report's keys (other keys, such as the root endpoint's `message`, allowed) plots zeros everywhere |
| View.ChartsOfReplacedBenign | frontend/src/App.jsx:168-266 | replacing the benign row of a body that carries a report changes only the benign charts; every other chart still plots the report's numbers |
| View.MissingBenignPrecision | frontend/src/App.jsx:168-266 | the endpoint's report with `benign.precision` removed plots 0 for that bar and exactly the report's values for every other chart, averages included |
| View.BadgeExamples | frontend/src/App.jsx:150 | "malignant" and "Malignant" style as malignant, "benign" as benign |
| View.MalignantScenario | frontend/src/App.jsx:91-93 | `{"prediction": "Malignant"}` shows a malignant pill reading MALIGNANT and no error |
| View.EmptyBodyScenario | frontend/src/App.jsx:93 | `{}` shows "Unexpected API response" and no pill |
| View.NoMetricsNoPanel | frontend/src/App.jsx:55-66 | if the metrics never arrive readable, the panel never renders whatever else happens |
| View.SettlementShowsOutcome | frontend/src/App.jsx:91-96 | after any settlement the placeholder is gone or the error box shows; with string labels (what app/main.py:63 sends) it is a pill or the error box, and only a truthy non-string label reaches the faulting render |
| App.Init | frontend/src/App.jsx:42-66 | the page starts on the splash with the initial dashboard state and the metrics request outstanding |
| App.StepValid | frontend/src/App.jsx:102-134 | page transitions keep the splash shown exactly while mounted, `onFinish` run exactly once once it is gone, no upload during the splash, at most one request in flight exactly while loading |
| App.Reachable | frontend/src/App.jsx:102-134 | in every reachable page at most one prediction request is in flight, the button is disabled while it is, and the dashboard appears only after exactly one `onFinish` |
| App.StableSplashUnaffected | frontend/src/App.jsx:102-110 | with a stable `onFinish`, dashboard events leave the splash state untouched |
| App.RerenderRestartsImage | frontend/src/App.jsx:102-110 | as written, a dashboard change while an image is visible restarts that image's timers from the moment of the change |
| App.MetricsPostponeHandOff | frontend/src/App.jsx:102-110 | as written, any readable metrics body arriving `at` ms after mount, with `0 <= at <= 1500` (while the first image shows), moves the hand-off from 3900 ms to `at + 3900` ms |
| App.StableHandOffOnTime | frontend/src/App.jsx:102-110 | with a stable `onFinish` the same response, at any such `at`, leaves the hand-off at 3900 ms |

## Findings

| source | as written | input that shows it | evidently intended | confidence | as-written member | corrected member |
|---|---|---|---|---|---|---|
| frontend/src/App.jsx:25 | `onFinish` is an effect dependency of the splash, and `App` passes a new inline arrow function on every render (line 106). `App` requests metrics at mount (lines 55-66), during the splash. When the response arrives it re-renders `App`, and the splash effect clears and re-schedules the current image's timers. | the metrics body `{}` arriving 1000 ms after mount: the dashboard appears at 4900 ms instead of 3900 ms (in general `at + 3900` ms for a body arriving at `at <= 1500`) | the splash keeps its own schedule whatever the dashboard state does (a stable `onFinish`) | medium; not executed | App.MetricsPostponeHandOff | App.StableHandOffOnTime |

`App.Step` models the page as written and `App.StepStable` models it with a stable
`onFinish`. `App.StepValid` proves the page invariant for both.

## Left out

- The network and browser APIs themselves are replaced by events carrying their
  outcome: `fetch`, `FormData`, `res.json()`, `URL.createObjectURL`. A body that is not
  JSON is a failure event.
- Console logging (`console.warn`, `console.error`) is left out: it has no effect on
  state.
- The Plotly trace and layout objects are left out: colours, titles, ranges and sizes
  are declarative input to a third-party library. That includes the bar chart's title,
  which embeds the prediction. Only the plotted values and their `?? 0` defaulting are
  modelled.
- Class names, `alt` texts and the splash credit line are left out, other than the
  pill's colour and the splash image's visibility.
- View.GaugeReadsAccuracy: JavaScript's numeric coercion of a non-number accuracy in `* 100`
  is not modelled; the gauge value is given only for numbers.
- Js.Get: inherited properties (`constructor`, `toString`, ...) and `length` of strings
  and arrays are not modelled. None of the keys the page reads is one of them.
- View.SettlementShowsOutcome: a truthy non-string prediction makes `toLowerCase` throw
  during render, and with no error boundary React unmounts the whole page. The model
  marks that render as `RenderFault`, but `App` keeps accepting events after it.
- Metric values are `real`. JSON numbers are finite, so `NaN` does not arise. Floating
  point rounding of `* 100` is not modelled.
- View.PredictionArea: the pill text upper-cases ASCII letters only; full Unicode
  case mapping of `toUpperCase` is not modelled (a label "é" shows as "é", not "É").
  The badge colour is exact: the only non-ASCII characters that lower-case to ASCII
  letters (U+0130 to `i` followed by U+0307, U+212A to `k`) cannot complete "malignant".
- View.ErrorBox: rendering a non-string error value as a React child is not modelled.
  An object value would make React throw. The model returns the stored value.
- React's scheduling is abstracted. The model does not cover StrictMode's double effect
  runs or render batching beyond "one handler is one transition". An `App` re-render is
  taken to happen exactly when the dashboard state changed.
- Browsers clamp nested timers to 4 ms; that clamping and timer drift are not modelled.
- The splash's props (`images`, `visibleDuration`, `fade`) are fixed per `Config`;
  `App` passes constants.
- Splash.FinishesOnce: the exact hand-off time is proved only for non-negative
  `visibleDuration` and `fade` whose sum is below 2^31 ms. The order of hide and change
  differs when `fade` is negative, and longer delays wrap
  (`Splash.OverlongDelayWraps` shows one such case). `Splash.RunValid` covers every
  duration.
- Stale responses and races are not modelled. A settlement applies to whatever the
  state is. `App` lets a settlement answer only a request in flight, and the gated
  button allows at most one such request.
- Preview URLs are never revoked by the source. The model only counts the URLs
  created.
- `app/main.py` (the HTTP wrapper) and `app/model.py` (PyTorch inference) are not part
  of this model. They are the server side of the two endpoints, which appear here only
  through the bodies they send.

=== FILE: app.dfy ===
/** The page as a whole (`App` in frontend/src/App.jsx): the splash sequence runs
    first and the dashboard's controls exist only after its `onFinish`; the metrics
    request is sent when `App` mounts, which is while the splash is still showing.

    Besides the two components' states the page records the network's side of the
    story: how many prediction requests are in flight and whether the metrics request
    is still outstanding, so that a settlement can only answer a request that was
    sent. */
module App {
  import opened Wrappers
  import opened Js
  import Splash
  import Dashboard
  import View

  const Images: seq<string> := ["/images/melons.jpg", "/images/trafficlight.jpg"]

  /** The props `App` passes: two images, 1500 ms visible, 350 ms fade */
  const SplashConfig: Splash.Config := Splash.Config(Images, 1500, 350)

  datatype Page = Page(
    showSplash: bool,
    splash: Splash.Splash,
    dash: Dashboard.State,
    inFlight: nat,          // prediction requests sent and not yet settled
    metricsPending: bool    // the mount-time metrics request has not settled yet
  )

  function Init(): (p: Page)
    ensures p.showSplash && p.splash == Splash.Mount(SplashConfig) && p.dash == Dashboard.Init()
    ensures p.inFlight == 0 && p.metricsPending
  {
    Page(true, Splash.Mount(SplashConfig), Dashboard.Init(), 0, true)
  }

  datatype Event =
    | SplashTimer                          // the splash's next timer fires
    | Dispatch(e: Dashboard.Event, at: int) // a dashboard event at clock `at`

  /** Whether a dashboard event can happen: the file input and the button are
      rendered only after the splash, a form submit goes through only while the
      button is enabled, and a settlement answers an outstanding request. */
  predicate Allowed(p: Page, e: Dashboard.Event) {
    match e
    case FileChosen(_) => !p.showSplash
    case Submitted => !p.showSplash && View.SubmitEnabled(p.dash)
    case Responded(_) => p.inFlight > 0
    case RequestFailed => p.inFlight > 0
    case MetricsArrived(_) => p.metricsPending
    case MetricsFailed => p.metricsPending
  }

  /** The page after a dashboard event, before any effect on the splash */
  function Apply(p: Page, e: Dashboard.Event): Page
    requires Allowed(p, e)
  {
    var d := Dashboard.Step(p.dash, e);
    match e
    case Submitted => p.(dash := d, inFlight := p.inFlight + 1)
    case Responded(_) => p.(dash := d, inFlight := p.inFlight - 1)
    case RequestFailed => p.(dash := d, inFlight := p.inFlight - 1)
    case MetricsArrived(_) => p.(dash := d, metricsPending := false)
    case MetricsFailed => p.(dash := d, metricsPending := false)
    case FileChosen(_) => p.(dash := d)
  }

  /** One page transition. `stableFinish` says whether `App` hands the splash the same
      `onFinish` on every render. As written it does not: `onFinish` is an inline
      arrow function, so every `App` render that happens while the splash is showing
      (a dashboard state change) gives the splash effect a new dependency, and the
      effect re-runs, restarting the current image's timers. */
  function StepWith(p: Page, ev: Event, stableFinish: bool): Option<Page> {
    match ev
    case SplashTimer =>
      if !p.showSplash then None
      else (match Splash.Fire(SplashConfig, p.splash)
        case None => None
        case Some(s) => Some(p.(splash := s, showSplash := s.finishCalls == p.splash.finishCalls)))
    case Dispatch(e, at) =>
      if !Allowed(p, e) then None
      else if p.showSplash && !Splash.Before(p.splash, at) then None
      else
        var q := Apply(p, e);
        if p.showSplash && q.dash != p.dash && !stableFinish then
          match Splash.Step(SplashConfig, p.splash, Splash.Rerender(at))
          case None => None
          case Some(s) => Some(q.(splash := s))
        else Some(q)
  }

  /** The page as written */
  function Step(p: Page, ev: Event): Option<Page> {
    StepWith(p, ev, false)
  }

  /** The page with a stable `onFinish` (for instance one memoised with `useCallback`) */
  function StepStable(p: Page, ev: Event): Option<Page> {
    StepWith(p, ev, true)
  }

  function Run(p: Page, evs: seq<Event>): Option<Page>
    decreases |evs|
  {
    if |evs| == 0 then Some(p)
    else match Step(p, evs[0])
      case None => None
      case Some(q) => Run(q, evs[1..])
  }

  /** The page's invariant: both components are in reachable states; the splash is
      shown exactly while it is mounted, and once it is gone `onFinish` has run
      exactly once; nothing is uploaded during the splash; and at most one prediction
      request is in flight, exactly while `loading` is set. */
  ghost predicate Valid(p: Page) {
    && Splash.Valid(SplashConfig, p.splash)
    && Dashboard.Valid(p.dash)
    && (p.showSplash <==> p.splash.mounted)
    && (!p.showSplash ==> p.splash.finishCalls == 1)
    && (p.showSplash ==> p.dash.file.None? && p.inFlight == 0)
    && p.inFlight <= 1
    && (p.dash.loading <==> p.inFlight == 1)
  }

  lemma InitValid()
    ensures Valid(Init())
  {
    Splash.MountValid(SplashConfig);
  }

  /** Both variants keep the invariant. */
  lemma StepValid(p: Page, ev: Event, stableFinish: bool)
    requires Valid(p)
    ensures StepWith(p, ev, stableFinish).Some? ==> Valid(StepWith(p, ev, stableFinish).value)
  {
    match ev
    case SplashTimer =>
      if p.showSplash {
        Splash.StepValid(SplashConfig, p.splash, Splash.TimerFires);
        Splash.FireEffect(SplashConfig, p.splash);
      }
    case Dispatch(e, at) =>
      Dashboard.StepValid(p.dash, e);
      Splash.StepValid(SplashConfig, p.splash, Splash.Rerender(at));
  }

  lemma {:induction false} RunValid(p: Page, evs: seq<Event>)
    requires Valid(p)
    ensures Run(p, evs).Some? ==> Valid(Run(p, evs).value)
    decreases |evs|
  {
    if |evs| > 0 {
      StepValid(p, evs[0], false);
      if Step(p, evs[0]).Some? {
        RunValid(Step(p, evs[0]).value, evs[1..]);
      }
    }
  }

  /** Whatever happens, no second prediction request starts while one is in flight,
      the button is disabled exactly while one is, and the dashboard is on screen only
      after the splash's `onFinish` ran exactly once. */
  lemma Reachable(evs: seq<Event>)
    ensures Run(Init(), evs).Some? ==>
      var p := Run(Init(), evs).value;
      && p.inFlight <= 1
      && (p.inFlight == 1 ==> !View.SubmitEnabled(p.dash))
      && (!p.showSplash ==> p.splash.finishCalls == 1)
      && (p.showSplash ==> p.dash.file.None? && p.inFlight == 0)
  {
    InitValid();
    RunValid(Init(), evs);
  }

  /** With a stable `onFinish`, dashboard events leave the splash alone, so the
      hand-off happens on its own schedule. */
  lemma StableSplashUnaffected(p: Page, e: Dashboard.Event, at: int)
    ensures StepStable(p, Dispatch(e, at)).Some? ==>
      StepStable(p, Dispatch(e, at)).value.splash == p.splash
  {
  }

  /** As written, a dashboard change while image `i` is fully visible restarts that
      image: its timers are scheduled afresh from the moment of the change. */
  lemma RerenderRestartsImage(p: Page, e: Dashboard.Event, i: nat, t: int, at: int)
    requires p.showSplash && p.splash == Splash.Cycle(SplashConfig, i, t) && i < |Images|
    requires Allowed(p, e) && Apply(p, e).dash != p.dash
    requires t <= at <= t + SplashConfig.visibleDuration
    ensures Step(p, Dispatch(e, at)) == Some(Apply(p, e).(splash := Splash.Cycle(SplashConfig, i, at)))
  {
  }

  /** A metrics response (any readable body) arriving `at` ms after mount, while the
      first image is still fully visible, postpones the hand-off to the dashboard by
      `at`: from 3900 ms to `at + 3900` ms. */
  lemma MetricsPostponeHandOff(data: Value, at: int)
    requires !Nullish(data) && 0 <= at <= SplashConfig.visibleDuration
    ensures var ev := Dispatch(Dashboard.MetricsArrived(data), at);
      && Step(Init(), ev).Some?
      && Splash.Fires(SplashConfig, Step(Init(), ev).value.splash, 2 * |Images| + 1) ==
           Some(Splash.Done(SplashConfig, at + 3900))
  {
    var e := Dashboard.MetricsArrived(data);
    var p := Init();
    assert p.splash == Splash.Cycle(SplashConfig, 0, 0);
    assert !Nullish(Apply(p, e).dash.metrics);
    RerenderRestartsImage(p, e, 0, 0, at);
    Splash.FinishTimeIs(SplashConfig, |Images|, at);
    Splash.PlaysToCompletion(SplashConfig, 0, |Images|, at, 2 * |Images| + 1, at + 3900);
  }

  /** With a stable `onFinish` the same response leaves the hand-off at 3900 ms. */
  lemma StableHandOffOnTime(data: Value, at: int)
    requires !Nullish(data) && 0 <= at <= SplashConfig.visibleDuration
    ensures var ev := Dispatch(Dashboard.MetricsArrived(data), at);
      && StepStable(Init(), ev).Some?
      && Splash.Fires(SplashConfig, StepStable(Init(), ev).value.splash, 2 * |Images| + 1) ==
           Some(Splash.Done(SplashConfig, 3900))
  {
    var p := Init();
    assert p.splash == Splash.Cycle(SplashConfig, 0, 0);
    StableSplashUnaffected(p, Dashboard.MetricsArrived(data), at);
    Splash.FinishTimeIs(SplashConfig, |Images|, 0);
    Splash.PlaysToCompletion(SplashConfig, 0, |Images|, 0, 2 * |Images| + 1, 3900);
  }
}

=== FILE: dashboard.dfy ===
/** The dashboard controller (`App` in frontend/src/App.jsx): the state the page keeps
    and one pure transition per thing that can happen to it.

    Browser I/O arrives as events carrying its outcome: the user's file selection, the
    submit, the prediction request settling with an already-decoded JSON body or with
    an exception (network failure or a body that is not JSON), and the metrics request
    doing the same. React batches the state setters one handler calls, so each event
    is one transition. */
module Dashboard {
  import opened Wrappers
  import opened Js

  /** A `File` object chosen in the file input; only its identity matters here. */
  datatype FileRef = FileRef(id: nat)

  /** A `blob:` URL from `URL.createObjectURL(file)`; each call yields a fresh one. */
  datatype ObjectUrl = ObjectUrl(file: FileRef, serial: nat)

  /** The page state. `prediction`, `error` and `metrics` hold whatever JSON value was
      stored (`Null` initially); `urlsCreated` counts the object URLs created so far,
      none of which is ever revoked. */
  datatype State = State(
    file: Option<FileRef>,
    preview: Option<ObjectUrl>,
    prediction: Value,
    error: Value,
    loading: bool,
    metrics: Value,
    urlsCreated: nat
  )

  /** The POST the submit sends: a multipart body whose field `file` is the file */
  datatype Request = Post(file: FileRef)

  const UnexpectedResponse: string := "Unexpected API response"
  const ConnectFailure: string := "Failed to connect to API"

  function Init(): (s: State)
    ensures s.file.None? && s.preview.None? && !s.loading
    ensures s.prediction == Null && s.error == Null && s.metrics == Null
  {
    State(None, None, Null, Null, false, Null, 0)
  }

  /** `e.target.files?.[0] ?? null`: no file list, or an empty one, selects nothing. */
  function Chosen(files: Option<seq<FileRef>>): (f: Option<FileRef>)
    ensures f.Some? <==> files.Some? && |files.value| > 0
    ensures f.Some? ==> f.value == files.value[0]
  {
    match files
    case None => None
    case Some(fs) => if |fs| == 0 then None else Some(fs[0])
  }

  /** `onFileChange`: store the selection, clear the outcome of the last submit, and
      show a preview of the new file (a fresh object URL) or none. */
  function SelectFile(s: State, files: Option<seq<FileRef>>): (r: State)
    ensures r.file == Chosen(files)
    ensures r.prediction == Null && r.error == Null
    ensures r.preview.Some? <==> r.file.Some?
    ensures r.file.Some? ==> r.preview == Some(ObjectUrl(r.file.value, s.urlsCreated))
    ensures r.file.Some? ==> r.urlsCreated == s.urlsCreated + 1
    ensures r.file.None? ==> r.urlsCreated == s.urlsCreated
    ensures r.loading == s.loading && r.metrics == s.metrics
  {
    var f := Chosen(files);
    match f
    case Some(x) =>
      s.(file := f, prediction := Null, error := Null,
         preview := Some(ObjectUrl(x, s.urlsCreated)), urlsCreated := s.urlsCreated + 1)
    case None =>
      s.(file := None, prediction := Null, error := Null, preview := None)
  }

  /** `onSubmit` up to the `fetch`: without a file nothing happens and nothing is
      sent; otherwise the request goes out with `loading` set and the previous
      outcome cleared. */
  function Submit(s: State): (r: (State, Option<Request>))
    ensures s.file.None? ==> r == (s, None)
    ensures s.file.Some? ==>
      && r.1 == Some(Post(s.file.value))
      && r.0 == s.(loading := true, prediction := Null, error := Null)
  {
    match s.file
    case None => (s, None)
    case Some(f) => (s.(loading := true, prediction := Null, error := Null), Some(Post(f)))
  }

  /** The request settled with the decoded body `data`. Reading `data.prediction`
      throws when the body is `null`, which lands in the same `catch` as a transport
      failure. Otherwise a truthy `prediction` is stored, a truthy `error` is stored,
      both when both are truthy, and the fixed fallback message when neither is. The
      `finally` clears `loading` in every case. */
  function Respond(s: State, data: Value): (r: State)
    ensures !r.loading
    ensures Truthy(r.prediction) || Truthy(r.error)
    ensures r.file == s.file && r.preview == s.preview && r.metrics == s.metrics
    ensures r.urlsCreated == s.urlsCreated
    ensures Nullish(data) ==> r == Fail(s)
    ensures !Nullish(data) ==>
      var p := OptGet(data, "prediction");
      var e := OptGet(data, "error");
      && r.prediction == (if Truthy(p) then p else s.prediction)
      && (Truthy(e) ==> r.error == e)
      && (!Truthy(p) && !Truthy(e) ==> r.error == Str(UnexpectedResponse))
      && (Truthy(p) && !Truthy(e) ==> r.error == s.error)
  {
    match Get(data, "prediction")
    case None => Fail(s)
    case Some(p) =>
      var e := OptGet(data, "error");
      var s1 := if Truthy(p) then s.(prediction := p) else s;
      var s2 := if Truthy(e) then s1.(error := e) else s1;
      var s3 := if !Truthy(p) && !Truthy(e) then s2.(error := Str(UnexpectedResponse)) else s2;
      s3.(loading := false)
  }

  /** The request failed (transport error or a body that is not JSON): the fixed
      message is shown, the prediction is left as it was, `loading` is cleared. */
  function Fail(s: State): (r: State)
    ensures !r.loading && r.error == Str(ConnectFailure) && Truthy(r.error)
    ensures r.prediction == s.prediction && r.file == s.file && r.preview == s.preview
    ensures r.metrics == s.metrics && r.urlsCreated == s.urlsCreated
  {
    s.(error := Str(ConnectFailure), loading := false)
  }

  /** The metrics request settled with the decoded body `data`: store `data.metrics`
      when it is present, else the whole body. Reading `data.metrics` throws on a
      `null` body; the `catch` only logs, so nothing changes. */
  function LoadMetrics(s: State, data: Value): (r: State)
    ensures Nullish(data) ==> r == s
    ensures !Nullish(data) ==> !Nullish(r.metrics)
    ensures !Nullish(data) && data.Obj? && "metrics" in data.props && !Nullish(data.props["metrics"])
      ==> r.metrics == data.props["metrics"]
    ensures !Nullish(data) && (!data.Obj? || "metrics" !in data.props || Nullish(data.props["metrics"]))
      ==> r.metrics == data
    ensures r == s.(metrics := r.metrics)
  {
    match Get(data, "metrics")
    case None => s
    case Some(m) => s.(metrics := Coalesce(m, data))
  }

  datatype Event =
    | FileChosen(files: Option<seq<FileRef>>)
    | Submitted
    | Responded(data: Value)
    | RequestFailed
    | MetricsArrived(data: Value)
    | MetricsFailed

  /** The reducer: one transition per event */
  function Step(s: State, e: Event): State {
    match e
    case FileChosen(files) => SelectFile(s, files)
    case Submitted => Submit(s).0
    case Responded(data) => Respond(s, data)
    case RequestFailed => Fail(s)
    case MetricsArrived(data) => LoadMetrics(s, data)
    case MetricsFailed => s
  }

  function Run(s: State, es: seq<Event>): State
    decreases |es|
  {
    if |es| == 0 then s else Run(Step(s, es[0]), es[1..])
  }

  /** What every reachable state satisfies: prediction and error are either unset or
      a truthy value (nothing falsy is ever stored), and the preview is a URL created
      from the selected file, the latest one created, exactly when a file is selected. */
  ghost predicate Valid(s: State) {
    && (s.prediction == Null || Truthy(s.prediction))
    && (s.error == Null || Truthy(s.error))
    && (s.preview.Some? <==> s.file.Some?)
    && (s.file.Some? ==> s.urlsCreated > 0 && s.preview == Some(ObjectUrl(s.file.value, s.urlsCreated - 1)))
  }

  lemma StepValid(s: State, e: Event)
    requires Valid(s)
    ensures Valid(Step(s, e))
  {
  }

  lemma {:induction false} RunValid(s: State, es: seq<Event>)
    requires Valid(s)
    ensures Valid(Run(s, es))
    decreases |es|
  {
    if |es| > 0 {
      StepValid(s, es[0]);
      RunValid(Step(s, es[0]), es[1..]);
    }
  }

  /** Every state the page can reach satisfies `Valid`. */
  lemma Reachable(es: seq<Event>)
    ensures Valid(Run(Init(), es))
  {
    RunValid(Init(), es);
  }

  /** The response body as a tagged outcome: a label, an error message, both,
      neither (malformed), or a body that cannot be read at all. */
  datatype Outcome =
    | Labelled(verdict: Value)
    | Rejected(message: Value)
    | LabelledAndRejected(verdict: Value, message: Value)
    | Malformed
    | Unreadable

  function Classify(data: Value): Outcome {
    if Nullish(data) then Unreadable
    else if data.Obj? then
      var p := if "prediction" in data.props then data.props["prediction"] else Undefined;
      var e := if "error" in data.props then data.props["error"] else Undefined;
      if Truthy(p) && Truthy(e) then LabelledAndRejected(p, e)
      else if Truthy(p) then Labelled(p)
      else if Truthy(e) then Rejected(e)
      else Malformed
    else Malformed
  }

  /** A submit followed by its response shows exactly what the body classifies as:
      the label alone, the message alone, both when the body carries both, the
      fallback for a body with neither, the connection failure for an unreadable
      one; `loading` is back to false. */
  lemma SubmitThenRespond(s: State, data: Value)
    requires s.file.Some?
    ensures var r := Respond(Submit(s).0, data);
      && !r.loading
      && match Classify(data)
         case Labelled(l) => r.prediction == l && r.error == Null
         case Rejected(m) => r.prediction == Null && r.error == m
         case LabelledAndRejected(l, m) => r.prediction == l && r.error == m
         case Malformed => r.prediction == Null && r.error == Str(UnexpectedResponse)
         case Unreadable => r.prediction == Null && r.error == Str(ConnectFailure)
  {
  }

  /** A failed request after a submit shows the connection failure and no prediction. */
  lemma SubmitThenFail(s: State)
    requires s.file.Some?
    ensures var r := Fail(Submit(s).0);
      !r.loading && r.prediction == Null && r.error == Str(ConnectFailure)
  {
  }

  /** Selecting a file (or nothing) clears the outcome and replaces the file whatever
      came before, and selecting twice is the same as selecting once, up to the fresh
      preview URL. */
  lemma SelectionResets(s: State, t: State, files: Option<seq<FileRef>>)
    requires s.loading == t.loading && s.metrics == t.metrics
    requires s.urlsCreated == t.urlsCreated
    ensures SelectFile(s, files) == SelectFile(t, files)
    ensures var r := SelectFile(SelectFile(s, files), files);
      r.file == SelectFile(s, files).file && r.prediction == Null && r.error == Null
  {
  }

  /** Outside a submit, only a selection or a settled request changes prediction and
      error, only a selection changes the file, and `loading` changes only through a
      submit or a settlement. */
  lemma FrameConditions(s: State, e: Event)
    ensures e.MetricsArrived? || e.MetricsFailed? ==>
      Step(s, e) == s.(metrics := Step(s, e).metrics)
    ensures !e.FileChosen? ==> Step(s, e).file == s.file && Step(s, e).preview == s.preview
    ensures e.FileChosen? || e.MetricsArrived? || e.MetricsFailed? ==>
      Step(s, e).loading == s.loading
  {
  }
}

=== FILE: js.dfy ===
/** The slice of JavaScript value semantics the page relies on: a decoded JSON body,
    truthiness (`if (x)`, `!x`, `a && b`), nullish coalescing (`a ?? b`), property
    access (`v.k`, which throws on `null`/`undefined`) and optional chaining (`v?.k`),
    and the `toLowerCase` / `toUpperCase` / `includes` string methods. */
module Js {
  import opened Wrappers

  /** A JavaScript value as produced by `res.json()`, plus `undefined` for a missing
      property. JSON numbers are finite, so `NaN` never occurs. */
  datatype Value =
    | Undefined
    | Null
    | Bool(b: bool)
    | Num(n: real)
    | Str(s: string)
    | Arr(items: seq<Value>)
    | Obj(props: map<string, Value>)

  /** `null` or `undefined`: the values `??` replaces and on which `.` throws */
  predicate Nullish(v: Value) {
    v.Undefined? || v.Null?
  }

  /** JavaScript's ToBoolean restricted to JSON values */
  predicate Truthy(v: Value) {
    match v
    case Undefined => false
    case Null => false
    case Bool(b) => b
    case Num(n) => n != 0.0
    case Str(s) => s != ""
    case Arr(_) => true
    case Obj(_) => true
  }

  /** `v.key`, for the property names the page reads (`prediction`, `error`,
      `metrics`, `accuracy`, the report's class and score keys). `None` stands for
      the TypeError thrown when `v` is `null` or `undefined`. None of those names is
      inherited by JSON values or is `length`, so they are found only as own
      properties of parsed objects and on any other value read as `undefined`.
      Inherited properties such as `constructor`, and `length` of strings and arrays,
      are not modelled. */
  function Get(v: Value, key: string): (r: Option<Value>)
    ensures r.None? <==> Nullish(v)
    ensures r.Some? && r.value != Undefined ==> v.Obj? && key in v.props && v.props[key] == r.value
    ensures v.Obj? && key in v.props ==> r == Some(v.props[key])
  {
    if Nullish(v) then None
    else if v.Obj? && key in v.props then Some(v.props[key])
    else Some(Undefined)
  }

  /** `v?.key`: short-circuits to `undefined` instead of throwing */
  function OptGet(v: Value, key: string): (r: Value)
    ensures Nullish(v) ==> r == Undefined
    ensures !Nullish(v) ==> Some(r) == Get(v, key)
  {
    match Get(v, key)
    case None => Undefined
    case Some(x) => x
  }

  /** `a ?? b` */
  function Coalesce(a: Value, b: Value): (r: Value)
    ensures !Nullish(a) ==> r == a
    ensures Nullish(a) ==> r == b
  {
    if Nullish(a) then b else a
  }

  /** `s.toLowerCase()` on one character, for the ASCII letters */
  function LowerChar(c: char): char {
    if 'A' <= c <= 'Z' then (c as int + 32) as char else c
  }

  /** `s.toUpperCase()` on one character, for the ASCII letters */
  function UpperChar(c: char): char {
    if 'a' <= c <= 'z' then (c as int - 32) as char else c
  }

  function ToLower(s: string): (r: string)
    ensures |r| == |s|
    ensures forall i :: 0 <= i < |s| ==> r[i] == LowerChar(s[i])
  {
    seq(|s|, i requires 0 <= i < |s| => LowerChar(s[i]))
  }

  function ToUpper(s: string): (r: string)
    ensures |r| == |s|
    ensures forall i :: 0 <= i < |s| ==> r[i] == UpperChar(s[i])
  {
    seq(|s|, i requires 0 <= i < |s| => UpperChar(s[i]))
  }

  /** `t` occurs in `s` starting at position `i` */
  ghost predicate OccursAt(s: string, t: string, i: int) {
    0 <= i && i + |t| <= |s| && s[i..i + |t|] == t
  }

  /** `s.includes(t)`, scanning from the left */
  function Includes(s: string, t: string): bool
    decreases |s|
  {
    if |s| < |t| then false
    else if s[..|t|] == t then true
    else Includes(s[1..], t)
  }

  /** The scan answers true exactly when `t` occurs somewhere in `s`. */
  lemma {:induction false} IncludesIff(s: string, t: string)
    ensures Includes(s, t) <==> exists i :: OccursAt(s, t, i)
    decreases |s|
  {
    if |s| < |t| {
      forall i | 0 <= i
        ensures !OccursAt(s, t, i)
      {
      }
    } else if s[..|t|] == t {
      assert OccursAt(s, t, 0);
    } else {
      IncludesIff(s[1..], t);
      if Includes(s[1..], t) {
        var j :| OccursAt(s[1..], t, j);
        assert s[1..][j..j + |t|] == s[j + 1..j + 1 + |t|];
        assert OccursAt(s, t, j + 1);
      } else {
        forall i | OccursAt(s, t, i)
          ensures false
        {
          assert i != 0;
          assert s[1..][i - 1..i - 1 + |t|] == s[i..i + |t|];
          assert OccursAt(s[1..], t, i - 1);
        }
      }
    }
  }
}

=== FILE: splash.dfy ===
/** The splash sequencer (`SplashSequence` in frontend/src/App.jsx).

    The component shows `images[index]`, fully visible for `visibleDuration`
    milliseconds, then hidden (faded out) until `visibleDuration + fade`, then moves
    to the next image. Once `index` reaches the number of images it renders nothing
    and calls `onFinish` 200 ms later.

    Time is discrete here: the state carries the clock of the last event and the
    timers its effect has scheduled; an event either fires the earliest pending timer
    or is something from outside (the effect re-running because a dependency other
    than `index` changed, or the component being torn down) that happens before any
    pending timer is due. The effect's cleanup is what makes "only the timers of the
    current index can fire" true: every change of `index` and every re-run or
    teardown clears the timers scheduled before. */
module Splash {
  import opened Wrappers

  datatype Timer = HideTimer | ChangeTimer | FinishTimer

  /** A `setTimeout` registration: what fires, and at which clock value */
  datatype Scheduled = Scheduled(timer: Timer, due: int)

  /** The component's props besides `onFinish`, whose calls the state counts */
  datatype Config = Config(images: seq<string>, visibleDuration: int, fade: int)

  /** Grace delay between the last fade-out and `onFinish` */
  const FinishDelay: nat := 200

  datatype Splash = Splash(
    index: nat,
    visible: bool,
    now: int,                   // clock value of the last event
    pending: seq<Scheduled>,    // live timers, in the order they were scheduled
    mounted: bool,
    finishCalls: nat            // how many times `onFinish` has been called
  )

  /** One rendered frame: the image shown and whether it is faded in */
  datatype Frame = Frame(src: string, visible: bool)

  /** The largest delay `setTimeout` honours: its delay is a 32-bit signed `long` */
  const MaxDelay: int := 0x7FFF_FFFF

  /** The 32-bit pattern of `ms`, read as unsigned: `ms` reduced modulo 2^32 */
  function Wrap(ms: int): (w: int)
    ensures 0 <= w < 0x1_0000_0000
    ensures w == ms % 0x1_0000_0000
    decreases if ms < 0 then 0x1_0000_0000 - ms else ms
  {
    if ms < 0 then Wrap(ms + 0x1_0000_0000)
    else if ms >= 0x1_0000_0000 then Wrap(ms - 0x1_0000_0000)
    else ms
  }

  /** The delay `setTimeout` actually waits: the argument is converted to a 32-bit
      signed integer (wrapping modulo 2^32), and a negative result counts as zero. So
      a delay of 2^31 ms or more wraps and may fire at once. */
  function Clamp(ms: int): (r: nat)
    ensures r <= MaxDelay
    ensures 0 <= ms <= MaxDelay ==> r == ms
    ensures -0x8000_0000 <= ms < 0 ==> r == 0
    ensures ms % 0x1_0000_0000 <= MaxDelay ==> r == ms % 0x1_0000_0000
    ensures ms % 0x1_0000_0000 > MaxDelay ==> r == 0
  {
    if 0 <= ms <= MaxDelay then ms
    else
      var w := Wrap(ms);
      if w > MaxDelay then 0 else w
  }

  /** The timers the effect schedules for `index` when it runs at clock `at` */
  function Schedule(c: Config, index: nat, at: int): (p: seq<Scheduled>)
    ensures index >= |c.images| ==> p == [Scheduled(FinishTimer, at + FinishDelay)]
    ensures index < |c.images| ==>
      p == [Scheduled(HideTimer, at + Clamp(c.visibleDuration)),
            Scheduled(ChangeTimer, at + Clamp(c.visibleDuration + c.fade))]
    ensures forall j :: 0 <= j < |p| ==> p[j].due >= at
  {
    if index >= |c.images| then [Scheduled(FinishTimer, at + FinishDelay)]
    else [Scheduled(HideTimer, at + Clamp(c.visibleDuration)),
          Scheduled(ChangeTimer, at + Clamp(c.visibleDuration + c.fade))]
  }

  /** First render: `index = 0`, `visible = true`, and the effect has run once. */
  function Mount(c: Config): (s: Splash)
    ensures s.index == 0 && s.visible && s.mounted && s.finishCalls == 0
    ensures s.now == 0 && s.pending == Schedule(c, 0, 0)
    ensures |c.images| == 0 ==> s.pending == [Scheduled(FinishTimer, FinishDelay)]
    ensures |c.images| > 0 ==>
      s.pending == [Scheduled(HideTimer, Clamp(c.visibleDuration)),
                    Scheduled(ChangeTimer, Clamp(c.visibleDuration + c.fade))]
  {
    Splash(0, true, 0, Schedule(c, 0, 0), true, 0)
  }

  /** The timer that fires next: the earliest due, and among equally due timers the
      one scheduled first. */
  function Earliest(p: seq<Scheduled>): (k: nat)
    requires |p| > 0
    ensures k < |p|
    ensures forall j :: 0 <= j < |p| ==> p[k].due <= p[j].due
    ensures forall j :: 0 <= j < k ==> p[j].due > p[k].due
    decreases |p|
  {
    if |p| == 1 then 0
    else
      var k := Earliest(p[1..]);
      if p[0].due <= p[1 + k].due then 0 else 1 + k
  }

  /** Which timer fires next, if any */
  function Next(s: Splash): Option<Timer> {
    if |s.pending| == 0 then None
    else Some(s.pending[Earliest(s.pending)].timer)
  }

  /** The earliest pending timer fires and its callback runs:
      - hide: `setVisible(false)`; `index` is unchanged, so the effect does not re-run;
      - change: `index + 1` and `visible = true`; the changed `index` makes the cleanup
        clear the remaining timers and the effect schedule those of the new index;
      - finish: `onFinish()` hands control to the dashboard, which unmounts the
        sequencer and clears its timers. */
  function Fire(c: Config, s: Splash): Option<Splash> {
    if |s.pending| == 0 then None
    else
      var k := Earliest(s.pending);
      var t := s.pending[k];
      match t.timer
      case HideTimer =>
        Some(s.(visible := false, now := t.due, pending := s.pending[..k] + s.pending[k + 1..]))
      case ChangeTimer =>
        Some(s.(index := s.index + 1, visible := true, now := t.due,
                pending := Schedule(c, s.index + 1, t.due)))
      case FinishTimer =>
        Some(s.(now := t.due, pending := [], mounted := false, finishCalls := s.finishCalls + 1))
  }

  datatype Event =
    | TimerFires
    | Rerender(at: int)   // a dependency other than `index` changed (a fresh `onFinish`)
    | Unmount(at: int)    // teardown

  /** An outside event at clock `at` comes no earlier than the last event and no
      later than the next timer. */
  predicate Before(s: Splash, at: int) {
    s.now <= at && forall j :: 0 <= j < |s.pending| ==> at <= s.pending[j].due
  }

  /** One transition; `None` when the event cannot happen in `s`. */
  function Step(c: Config, s: Splash, e: Event): Option<Splash> {
    match e
    case TimerFires => Fire(c, s)
    case Rerender(at) =>
      if s.mounted && Before(s, at) then Some(s.(now := at, pending := Schedule(c, s.index, at)))
      else None
    case Unmount(at) =>
      if s.mounted && Before(s, at) then Some(s.(now := at, pending := [], mounted := false))
      else None
  }

  /** A sequence of events from `s`; `None` if one of them cannot happen. */
  function Run(c: Config, s: Splash, es: seq<Event>): Option<Splash>
    decreases |es|
  {
    if |es| == 0 then Some(s)
    else match Step(c, s, es[0])
      case None => None
      case Some(s') => Run(c, s', es[1..])
  }

  /** What the component renders: the current image, or nothing once the index has
      run past the last image (`return null`) or the component is gone. */
  function Render(c: Config, s: Splash): (r: Option<Frame>)
    ensures r.None? <==> !s.mounted || s.index >= |c.images|
    ensures r.Some? ==> r.value.src == c.images[s.index] && r.value.visible == s.visible
  {
    if s.mounted && s.index < |c.images| then Some(Frame(c.images[s.index], s.visible)) else None
  }

  /** The states reachable from `Mount`: the index stays within the images, the only
      live timers are those of the current index (hide then change while an image is
      shown, the single finish timer afterwards), no timer is overdue, and `onFinish`
      has been called at most once, and only after the last image. */
  ghost predicate Valid(c: Config, s: Splash) {
    && s.index <= |c.images|
    && (forall j :: 0 <= j < |s.pending| ==> s.pending[j].due >= s.now)
    && (!s.mounted ==> s.pending == [])
    && (s.mounted ==> s.finishCalls == 0)
    && (s.finishCalls <= 1)
    && (s.finishCalls == 1 ==> s.index == |c.images|)
    && (s.mounted && s.index < |c.images| ==>
          || (|s.pending| == 1 && s.pending[0].timer == ChangeTimer)
          || (|s.pending| == 2 && s.pending[0].timer == HideTimer && s.pending[1].timer == ChangeTimer))
    && (s.mounted && s.index >= |c.images| ==>
          |s.pending| == 1 && s.pending[0].timer == FinishTimer)
  }

  lemma MountValid(c: Config)
    ensures Valid(c, Mount(c))
  {
  }

  /** Hide and change fire only while an image is shown; finish only after the last. */
  lemma NextTimerMatchesIndex(c: Config, s: Splash)
    requires Valid(c, s)
    ensures Next(s) == Some(HideTimer) || Next(s) == Some(ChangeTimer) ==> s.index < |c.images|
    ensures Next(s) == Some(FinishTimer) ==> s.index == |c.images|
    ensures s.mounted ==> Next(s).Some?
  {
  }

  /** "change" advances by exactly one and restores visibility; "hide" only fades out. */
  lemma FireEffect(c: Config, s: Splash)
    requires Valid(c, s) && s.mounted
    ensures Fire(c, s).Some?
    ensures Next(s) == Some(HideTimer) ==>
      var r := Fire(c, s).value; r.index == s.index && !r.visible && r.mounted
    ensures Next(s) == Some(ChangeTimer) ==>
      var r := Fire(c, s).value;
      r.index == s.index + 1 && r.visible && r.mounted && r.pending == Schedule(c, r.index, r.now)
    ensures Next(s) == Some(FinishTimer) ==>
      var r := Fire(c, s).value; r.index == s.index && !r.mounted && r.finishCalls == s.finishCalls + 1
  {
  }

  /** Every transition keeps `Valid`, never moves the index backwards or by more than
      one, and never turns the clock back. */
  lemma StepValid(c: Config, s: Splash, e: Event)
    requires Valid(c, s)
    ensures Step(c, s, e).Some? ==>
      var r := Step(c, s, e).value;
      && Valid(c, r)
      && (r.index == s.index || r.index == s.index + 1)
      && r.now >= s.now
      && r.finishCalls >= s.finishCalls
  {
    if e.TimerFires? && s.mounted && |s.pending| > 0 {
      var k := Earliest(s.pending);
      if s.pending[k].timer == HideTimer {
        assert k == 0;
        assert s.pending[..k] + s.pending[k + 1..] == s.pending[1..];
      }
    }
  }

  /** Under any interleaving of timers, re-renders and teardown, `onFinish` is called
      at most once, the index only grows and stays within `[0, N]`. */
  lemma {:induction false} RunValid(c: Config, s: Splash, es: seq<Event>)
    requires Valid(c, s)
    ensures Run(c, s, es).Some? ==>
      var r := Run(c, s, es).value;
      Valid(c, r) && s.index <= r.index <= |c.images| && r.finishCalls <= 1 && r.now >= s.now
    decreases |es|
  {
    if |es| > 0 {
      StepValid(c, s, es[0]);
      if Step(c, s, es[0]).Some? {
        RunValid(c, Step(c, s, es[0]).value, es[1..]);
      }
    }
  }

  /** After teardown (or after `onFinish`, which causes it) nothing can happen: the
      cleanup has cleared every timer, so none is left to fire. */
  lemma NothingAfterUnmount(c: Config, s: Splash, es: seq<Event>)
    requires Valid(c, s) && !s.mounted && |es| > 0
    ensures Run(c, s, es).None?
  {
  }

  /** `k` consecutive timer firings with no outside events */
  function Fires(c: Config, s: Splash, k: nat): Option<Splash>
    decreases k
  {
    if k == 0 then Some(s)
    else match Fire(c, s)
      case None => None
      case Some(s') => Fires(c, s', k - 1)
  }

  /** The state right after the effect has scheduled the timers of image `i` at `t` */
  function Cycle(c: Config, i: nat, t: int): Splash {
    Splash(i, true, t, Schedule(c, i, t), true, 0)
  }

  /** Durations `setTimeout` waits out as given: neither negative nor past the
      32-bit limit */
  predicate Honoured(c: Config) {
    0 <= c.visibleDuration && 0 <= c.fade && c.visibleDuration + c.fade <= MaxDelay
  }

  /** The time one image takes: shown, then faded out */
  function Period(c: Config): int {
    c.visibleDuration + c.fade
  }

  /** The state once `onFinish` has been called at clock `at` */
  function Done(c: Config, at: int): Splash {
    Splash(|c.images|, true, at, [], false, 1)
  }

  /** Fires(k + 1) is one firing followed by k more. */
  lemma FiresUnfold(c: Config, s: Splash, s': Splash, k: nat)
    requires Fire(c, s) == Some(s')
    ensures Fires(c, s, k + 1) == Fires(c, s', k)
  {
  }

  /** Image `i` faded out at clock `at`, waiting for the change timer due at `due` */
  function Hidden(i: nat, at: int, due: int): Splash {
    Splash(i, false, at, [Scheduled(ChangeTimer, due)], true, 0)
  }

  /** With durations `setTimeout` waits out as given, the hide timer of image `i`
      fires first, `visibleDuration` after the image was shown, and fades it out. */
  lemma HideFires(c: Config, i: nat, t: int)
    requires Honoured(c) && i < |c.images|
    ensures Fire(c, Cycle(c, i, t)) == Some(Hidden(i, t + c.visibleDuration, t + Period(c)))
  {
    var p := Schedule(c, i, t);
    assert Clamp(c.visibleDuration) == c.visibleDuration && Clamp(Period(c)) == Period(c);
    assert p == [Scheduled(HideTimer, t + c.visibleDuration), Scheduled(ChangeTimer, t + Period(c))];
    assert Earliest(p[1..]) == 0;
    assert Earliest(p) == 0;
    assert p[..0] + p[1..] == [Scheduled(ChangeTimer, t + Period(c))];
  }

  /** The change timer then fires `fade` later and starts image `i + 1`'s cycle. */
  lemma ChangeFires(c: Config, i: nat, at: int, due: int)
    ensures Fire(c, Hidden(i, at, due)) == Some(Cycle(c, i + 1, due))
  {
    assert Earliest(Hidden(i, at, due).pending) == 0;
  }

  /** Two firings take image `i`'s cycle to image `i + 1`'s. */
  lemma CycleFires(c: Config, i: nat, t: int, n: nat)
    requires Honoured(c) && i < |c.images| && n >= 2
    ensures Fires(c, Cycle(c, i, t), n) == Fires(c, Cycle(c, i + 1, t + Period(c)), n - 2)
  {
    var h := Hidden(i, t + c.visibleDuration, t + Period(c));
    HideFires(c, i, t);
    ChangeFires(c, i, t + c.visibleDuration, t + Period(c));
    FiresUnfold(c, Cycle(c, i, t), h, n - 1);
    FiresUnfold(c, h, Cycle(c, i + 1, t + Period(c)), n - 2);
  }

  /** Past the last image, the finish timer is the one left: one firing, 200 ms
      later, ends the run. */
  lemma LastFire(c: Config, i: nat, t: int, n: nat, end: int)
    requires i == |c.images| && n == 1 && end == t + FinishDelay
    ensures Fires(c, Cycle(c, i, t), n) == Some(Done(c, end))
  {
    var s := Cycle(c, i, t);
    assert Earliest(s.pending) == 0;
    assert Fire(c, s) == Some(Done(c, end));
    FiresUnfold(c, s, Done(c, end), 0);
  }

  /** The clock at which `onFinish` runs when `m` images are still to be shown from
      clock `t`: one period per image, then the grace delay */
  function FinishTime(c: Config, m: nat, t: int): int
    decreases m
  {
    if m == 0 then t + FinishDelay else FinishTime(c, m - 1, t + Period(c))
  }

  lemma MulPred(m: nat, p: int)
    requires m > 0
    ensures m * p == (m - 1) * p + p
  {
  }

  /** The finish time in closed form */
  lemma {:induction false} FinishTimeIs(c: Config, m: nat, t: int)
    ensures FinishTime(c, m, t) == t + m * Period(c) + FinishDelay
    decreases m
  {
    if m > 0 {
      FinishTimeIs(c, m - 1, t + Period(c));
      MulPred(m, Period(c));
    }
  }

  /** From image `i`'s cycle at clock `t`, the `m` images left play out and the
      sequence calls `onFinish` exactly once, at `end`: 200 ms after the last fade-out.
      That takes `n = 2m + 1` firings, after which the component is gone and no timer
      is left. */
  lemma {:induction false} PlaysToCompletion(c: Config, i: nat, m: nat, t: int, n: nat, end: int)
    requires Honoured(c) && i + m == |c.images|
    requires n == 2 * m + 1 && end == FinishTime(c, m, t)
    ensures Fires(c, Cycle(c, i, t), n) == Some(Done(c, end))
    decreases m
  {
    if m == 0 {
      LastFire(c, i, t, n, end);
    } else {
      PlaysToCompletion(c, i + 1, m - 1, t + Period(c), n - 2, end);
      CycleFires(c, i, t, n);
    }
  }

  /** Mounted with durations `setTimeout` honours and left alone, the sequencer calls
      `onFinish` exactly once, at `N * (visibleDuration + fade) + 200` ms (200 ms
      after mounting when there are no images), and then nothing else happens. */
  lemma FinishesOnce(c: Config)
    requires Honoured(c)
    ensures var r := Fires(c, Mount(c), 2 * |c.images| + 1);
      && r.Some?
      && r.value.finishCalls == 1
      && r.value.now == |c.images| * Period(c) + FinishDelay
      && Render(c, r.value).None?
      && Fire(c, r.value).None?
  {
    assert Mount(c) == Cycle(c, 0, 0);
    FinishTimeIs(c, |c.images|, 0);
    PlaysToCompletion(c, 0, |c.images|, 0, 2 * |c.images| + 1, FinishTime(c, |c.images|, 0));
  }

  /** A visible duration of 2^31 ms wraps to a negative 32-bit delay, which counts as
      zero: with one image, the hide and change timers both fire at once, and
      `onFinish` runs 200 ms after mounting rather than 2^31 + 200 ms. */
  lemma OverlongDelayWraps()
    ensures var c := Config(["a"], 0x8000_0000, 0);
      Fires(c, Mount(c), 3) == Some(Done(c, FinishDelay))
  {
    var c := Config(["a"], 0x8000_0000, 0);
    var h := Hidden(0, 0, 0);
    assert Mount(c).pending == [Scheduled(HideTimer, 0), Scheduled(ChangeTimer, 0)];
    var p := Mount(c).pending;
    assert Earliest(p) == 0;
    assert p[..0] + p[1..] == [Scheduled(ChangeTimer, 0)];
    assert Fire(c, Mount(c)) == Some(h);
    ChangeFires(c, 0, 0, 0);
    LastFire(c, 1, 0, 1, FinishDelay);
    FiresUnfold(c, h, Cycle(c, 1, 0), 1);
    FiresUnfold(c, Mount(c), h, 2);
  }
}

=== FILE: view.dfy ===
/** What the dashboard shows, each a pure function of the state: the submit button,
    the prediction pill and its colour, the error box, whether the analytics panel is
    shown, and the numbers its charts plot (every missing field read as 0). */
module View {
  import opened Wrappers
  import opened Js
  import opened Dashboard

  /** The submit button is enabled (`disabled={!file || loading}`). */
  predicate SubmitEnabled(s: State) {
    s.file.Some? && !s.loading
  }

  function ButtonText(s: State): string {
    if s.loading then "Predicting..." else "Predict"
  }

  /** The button is disabled while a request is in flight, with the in-flight label,
      and disabled with no file; starting a submit disables it. */
  lemma ButtonStates(s: State)
    ensures s.loading ==> !SubmitEnabled(s) && ButtonText(s) == "Predicting..."
    ensures s.file.None? ==> !SubmitEnabled(s)
    ensures SubmitEnabled(s) ==> ButtonText(s) == "Predict"
    ensures SubmitEnabled(s) ==> !SubmitEnabled(Submit(s).0) && Submit(s).1.Some?
  {
  }

  datatype Badge = MalignantBadge | BenignBadge

  const MalignantWord: string := "malignant"

  /** The pill's colour: malignant exactly when the lower-cased label contains the word
      "malignant" anywhere, benign otherwise (a display heuristic, not a validation of
      the label). */
  function BadgeFor(text: string): (b: Badge)
    ensures b == MalignantBadge <==> exists i :: OccursAt(ToLower(text), MalignantWord, i)
  {
    IncludesIff(ToLower(text), MalignantWord);
    if Includes(ToLower(text), MalignantWord) then MalignantBadge else BenignBadge
  }

  datatype PredictionView =
    | NoPredictionYet
    | Pill(badge: Badge, text: string)
    | RenderFault          // a truthy non-string prediction has no `toLowerCase`

  /** The prediction area: the pill when a prediction is stored, with the label in
      upper case and the colour from `BadgeFor`, else the placeholder. */
  function PredictionArea(s: State): (v: PredictionView)
    ensures v.NoPredictionYet? <==> !Truthy(s.prediction)
    ensures v.Pill? <==> Truthy(s.prediction) && s.prediction.Str?
    ensures v.Pill? ==> v.text == ToUpper(s.prediction.s) && v.badge == BadgeFor(s.prediction.s)
  {
    if !Truthy(s.prediction) then NoPredictionYet
    else if s.prediction.Str? then Pill(BadgeFor(s.prediction.s), ToUpper(s.prediction.s))
    else RenderFault
  }

  /** The error box shows the stored error when it is truthy. */
  function ErrorBox(s: State): (r: Option<Value>)
    ensures r.Some? <==> Truthy(s.error)
    ensures r.Some? ==> r.value == s.error
  {
    if Truthy(s.error) then Some(s.error) else None
  }

  /** The analytics panel renders when both a prediction and metrics are stored
      (`prediction && metrics`). */
  predicate AnalyticsShown(s: State) {
    Truthy(s.prediction) && Truthy(s.metrics)
  }

  /** `v ?? 0` */
  function OrZero(v: Value): (r: Value)
    ensures !Nullish(r)
    ensures Nullish(v) ==> r == Num(0.0)
    ensures !Nullish(v) ==> r == v
  {
    Coalesce(v, Num(0.0))
  }

  /** One bar group: `precision`, `recall` and `f1_score` of a class or an average */
  datatype Scores = Scores(precision: Value, recall: Value, f1Score: Value)

  /** Every value the four charts plot */
  datatype Charts = Charts(
    accuracy: Value,
    benign: Scores,
    malignant: Scores,
    benignSupport: Value,
    malignantSupport: Value,
    macroAvg: Scores,
    weightedAvg: Scores
  )

  /** `m.key?.field ?? 0` */
  function Field(m: Value, key: string, field: string): Value
    requires !Nullish(m)
  {
    OrZero(OptGet(Get(m, key).value, field))
  }

  function ScoresOf(m: Value, key: string): Scores
    requires !Nullish(m)
  {
    Scores(Field(m, key, "precision"), Field(m, key, "recall"), Field(m, key, "f1_score"))
  }

  ghost predicate ScoresSet(s: Scores) {
    !Nullish(s.precision) && !Nullish(s.recall) && !Nullish(s.f1Score)
  }

  /** The chart values read from the stored metrics. No plotted value is ever
      `null` or `undefined`. */
  function ChartsOf(m: Value): (c: Charts)
    requires !Nullish(m)
    ensures !Nullish(c.accuracy) && !Nullish(c.benignSupport) && !Nullish(c.malignantSupport)
    ensures ScoresSet(c.benign) && ScoresSet(c.malignant)
    ensures ScoresSet(c.macroAvg) && ScoresSet(c.weightedAvg)
  {
    Charts(
      OrZero(Get(m, "accuracy").value),
      ScoresOf(m, "benign"),
      ScoresOf(m, "malignant"),
      Field(m, "benign", "support"),
      Field(m, "malignant", "support"),
      ScoresOf(m, "macro_avg"),
      ScoresOf(m, "weighted_avg"))
  }

  /** The gauge shows the accuracy as a percentage. */
  function GaugePercent(c: Charts): (r: Option<real>)
    ensures c.accuracy.Num? ==> r == Some(c.accuracy.n * 100.0)
    ensures !c.accuracy.Num? ==> r.None?
  {
    if c.accuracy.Num? then Some(c.accuracy.n * 100.0) else None
  }

  /** The panel: its charts when it is shown, nothing otherwise */
  function Analytics(s: State): (r: Option<Charts>)
    ensures r.Some? <==> AnalyticsShown(s)
    ensures r.Some? ==> r.value == ChartsOf(s.metrics)
  {
    if AnalyticsShown(s) then Some(ChartsOf(s.metrics)) else None
  }

  /** A per-class row of a classification report */
  datatype ClassReport = ClassReport(precision: real, recall: real, f1Score: real, support: real)

  /** A complete classification report, the shape the metrics endpoint serves */
  datatype Report = Report(
    accuracy: real,
    benign: ClassReport,
    malignant: ClassReport,
    macroAvg: ClassReport,
    weightedAvg: ClassReport)

  function ClassJson(r: ClassReport): Value {
    Obj(map["precision" := Num(r.precision), "recall" := Num(r.recall),
            "f1_score" := Num(r.f1Score), "support" := Num(r.support)])
  }

  /** The report as the JSON object the endpoint sends */
  function ReportJson(r: Report): Value {
    Obj(map["accuracy" := Num(r.accuracy),
            "benign" := ClassJson(r.benign), "malignant" := ClassJson(r.malignant),
            "macro_avg" := ClassJson(r.macroAvg), "weighted_avg" := ClassJson(r.weightedAvg)])
  }

  function ScoresFrom(r: ClassReport): Scores {
    Scores(Num(r.precision), Num(r.recall), Num(r.f1Score))
  }

  /** A class row present in the body plots its own scores and support. */
  lemma ClassFromJson(m: Value, key: string, cr: ClassReport)
    requires m.Obj? && key in m.props && m.props[key] == ClassJson(cr)
    ensures ScoresOf(m, key) == ScoresFrom(cr)
    ensures Field(m, key, "support") == Num(cr.support)
  {
    var o := ClassJson(cr).props;
    assert o["precision"] == Num(cr.precision) && o["recall"] == Num(cr.recall);
    assert o["f1_score"] == Num(cr.f1Score) && o["support"] == Num(cr.support);
  }

  /** The object `m` carries the report `r`'s fields under the endpoint's keys. */
  ghost predicate Carries(m: Value, r: Report) {
    && m.Obj?
    && "accuracy" in m.props && m.props["accuracy"] == Num(r.accuracy)
    && "benign" in m.props && m.props["benign"] == ClassJson(r.benign)
    && "malignant" in m.props && m.props["malignant"] == ClassJson(r.malignant)
    && "macro_avg" in m.props && m.props["macro_avg"] == ClassJson(r.macroAvg)
    && "weighted_avg" in m.props && m.props["weighted_avg"] == ClassJson(r.weightedAvg)
  }

  /** The endpoint's JSON for a report carries the report. */
  lemma ReportCarries(r: Report)
    ensures Carries(ReportJson(r), r)
  {
    var m := ReportJson(r).props;
    assert m["accuracy"] == Num(r.accuracy);
    assert m["benign"] == ClassJson(r.benign);
    assert m["malignant"] == ClassJson(r.malignant);
    assert m["macro_avg"] == ClassJson(r.macroAvg);
  }

  /** The charts a report should produce, read straight off the report */
  function ChartsFrom(r: Report): Charts {
    Charts(Num(r.accuracy), ScoresFrom(r.benign), ScoresFrom(r.malignant),
           Num(r.benign.support), Num(r.malignant.support),
           ScoresFrom(r.macroAvg), ScoresFrom(r.weightedAvg))
  }

  /** Any body carrying a report's fields (possibly among others, and the endpoint's
      own JSON for the report is one, by `ReportCarries`) plots exactly the report's
      numbers. */
  lemma ChartsOfCarried(m: Value, r: Report)
    requires Carries(m, r)
    ensures ChartsOf(m) == ChartsFrom(r)
  {
    var c := ChartsOf(m);
    assert c.accuracy == Num(r.accuracy);
    assert c.benign == ScoresFrom(r.benign) && c.benignSupport == Num(r.benign.support) by {
      ClassFromJson(m, "benign", r.benign);
    }
    assert c.malignant == ScoresFrom(r.malignant) && c.malignantSupport == Num(r.malignant.support) by {
      ClassFromJson(m, "malignant", r.malignant);
    }
    assert c.macroAvg == ScoresFrom(r.macroAvg) by {
      ClassFromJson(m, "macro_avg", r.macroAvg);
    }
    assert c.weightedAvg == ScoresFrom(r.weightedAvg) by {
      ClassFromJson(m, "weighted_avg", r.weightedAvg);
    }
  }

  /** The gauge reads the body's `accuracy`: a number `a` shows as `a * 100` (so a
      body carrying a report, see `Carries`, shows the report's accuracy), and a
      missing or `null` accuracy shows as 0. */
  lemma GaugeReadsAccuracy(m: Value)
    requires !Nullish(m)
    ensures m.Obj? && "accuracy" in m.props && m.props["accuracy"].Num? ==>
      GaugePercent(ChartsOf(m)) == Some(m.props["accuracy"].n * 100.0)
    ensures !m.Obj? || "accuracy" !in m.props || Nullish(m.props["accuracy"]) ==>
      GaugePercent(ChartsOf(m)) == Some(0.0)
  {
    var a := ChartsOf(m).accuracy;
    if m.Obj? && "accuracy" in m.props && m.props["accuracy"].Num? {
      assert a == m.props["accuracy"];
    } else if !m.Obj? || "accuracy" !in m.props || Nullish(m.props["accuracy"]) {
      assert a == Num(0.0);
    }
  }

  /** Charts of a body with none of the report's fields (it may hold others, such
      as the root endpoint's `message`) plot zeros everywhere. */
  lemma ChartsOfEmpty(m: Value)
    requires !Nullish(m)
    requires m.Obj? ==> ("accuracy" !in m.props && "benign" !in m.props && "malignant" !in m.props
                         && "macro_avg" !in m.props && "weighted_avg" !in m.props)
    ensures var c := ChartsOf(m);
      && c.accuracy == Num(0.0)
      && c.benign == Scores(Num(0.0), Num(0.0), Num(0.0)) && c.malignant == c.benign
      && c.macroAvg == c.benign && c.weightedAvg == c.benign
      && c.benignSupport == Num(0.0) && c.malignantSupport == Num(0.0)
  {
  }

  /** The class or average object `m.key`, if the body has one */
  ghost predicate HasField(m: Value, key: string, field: string) {
    && m.Obj? && key in m.props
    && m.props[key].Obj? && field in m.props[key].props
    && !Nullish(m.props[key].props[field])
  }

  /** A plotted per-class value is the report's own value when it is there and not
      `null`, and 0 when the class, the field, or both are missing. */
  lemma FieldDefaults(m: Value, key: string, field: string)
    requires !Nullish(m)
    ensures HasField(m, key, field) ==> Field(m, key, field) == m.props[key].props[field]
    ensures !HasField(m, key, field) ==> Field(m, key, field) == Num(0.0)
  {
  }

  /** Two bodies holding the same object under `key` plot the same row for it. */
  lemma SameRow(m: Value, m': Value, key: string)
    requires m.Obj? && m'.Obj? && key in m.props && key in m'.props
    requires m.props[key] == m'.props[key]
    ensures ScoresOf(m, key) == ScoresOf(m', key)
    ensures Field(m, key, "support") == Field(m', key, "support")
  {
  }

  /** Replacing the benign row of a body that carries a report changes the benign
      charts only: every other chart still plots the report's numbers. */
  lemma ChartsOfReplacedBenign(m: Value, r: Report, b: Value)
    requires Carries(m, r)
    ensures var m' := Obj(m.props["benign" := b]);
      ChartsOf(m') == ChartsFrom(r).(benign := ScoresOf(m', "benign"),
                                     benignSupport := Field(m', "benign", "support"))
  {
    var m' := Obj(m.props["benign" := b]);
    ChartsOfCarried(m, r);
    assert m'.props["accuracy"] == m.props["accuracy"];
    SameRow(m, m', "malignant");
    SameRow(m, m', "macro_avg");
    SameRow(m, m', "weighted_avg");
  }

  /** A row without `precision` plots 0 for that bar and its own other values. */
  lemma RowWithoutPrecision(m: Value, key: string, cr: ClassReport)
    requires m.Obj? && key in m.props
    requires m.props[key] == Obj(map["recall" := Num(cr.recall), "f1_score" := Num(cr.f1Score),
                                     "support" := Num(cr.support)])
    ensures ScoresOf(m, key) == Scores(Num(0.0), Num(cr.recall), Num(cr.f1Score))
    ensures Field(m, key, "support") == Num(cr.support)
  {
    var o := m.props[key].props;
    assert "precision" !in o;
    assert o["recall"] == Num(cr.recall) && o["f1_score"] == Num(cr.f1Score);
    assert o["support"] == Num(cr.support);
  }

  /** A report payload whose benign row lacks `precision` plots 0 for that bar and
      exactly the report's values for every other chart. */
  lemma MissingBenignPrecision(r: Report)
    ensures var b := Obj(map["recall" := Num(r.benign.recall), "f1_score" := Num(r.benign.f1Score),
                             "support" := Num(r.benign.support)]);
      var m := Obj(ReportJson(r).props["benign" := b]);
      ChartsOf(m) == ChartsFrom(r).(benign := Scores(Num(0.0), Num(r.benign.recall), Num(r.benign.f1Score)))
  {
    var b := Obj(map["recall" := Num(r.benign.recall), "f1_score" := Num(r.benign.f1Score),
                     "support" := Num(r.benign.support)]);
    var m := Obj(ReportJson(r).props["benign" := b]);
    ReportCarries(r);
    ChartsOfReplacedBenign(ReportJson(r), r, b);
    RowWithoutPrecision(m, "benign", r.benign);
  }

  /** A stored label styles as malignant exactly when its lower-cased text contains
      "malignant"; the server's two labels get the two colours. */
  lemma BadgeExamples()
    ensures BadgeFor("malignant") == MalignantBadge
    ensures BadgeFor("Malignant") == MalignantBadge
    ensures BadgeFor("benign") == BenignBadge
  {
    assert ToLower("malignant") == MalignantWord;
    assert OccursAt(ToLower("malignant"), MalignantWord, 0);
    assert ToLower("Malignant") == MalignantWord;
    assert OccursAt(ToLower("Malignant"), MalignantWord, 0);
    assert |ToLower("benign")| < |MalignantWord|;
  }

  /** The response `{"prediction": "Malignant"}` after a submit shows a malignant pill
      reading MALIGNANT and no error box. */
  lemma MalignantScenario(s: State)
    requires s.file.Some?
    ensures var r := Respond(Submit(s).0, Obj(map["prediction" := Str("Malignant")]));
      && r.prediction == Str("Malignant")
      && r.error == Null
      && ErrorBox(r).None?
      && PredictionArea(r) == Pill(MalignantBadge, "MALIGNANT")
  {
    BadgeExamples();
    assert ToUpper("Malignant") == "MALIGNANT";
  }

  /** The response `{}` shows the fallback message and no pill. */
  lemma EmptyBodyScenario(s: State)
    requires s.file.Some?
    ensures var r := Respond(Submit(s).0, Obj(map[]));
      ErrorBox(r) == Some(Str(UnexpectedResponse)) && PredictionArea(r) == NoPredictionYet
  {
  }

  /** If the metrics never arrive (or arrive unreadable), the panel never renders,
      whatever predictions come back. */
  lemma {:induction false} NoMetricsNoPanel(s: State, es: seq<Event>)
    requires s.metrics == Null
    requires forall k :: 0 <= k < |es| ==> !es[k].MetricsArrived? || Nullish(es[k].data)
    ensures Run(s, es).metrics == Null && !AnalyticsShown(Run(s, es))
    decreases |es|
  {
    if |es| > 0 {
      assert !es[0].MetricsArrived? || Nullish(es[0].data);
      NoMetricsNoPanel(Step(s, es[0]), es[1..]);
    }
  }

  /** A value the pill can render: a string, or a falsy value that is not rendered */
  predicate Renderable(v: Value) {
    Truthy(v) ==> v.Str?
  }

  /** After any settlement the prediction area is no longer the placeholder or the
      error box shows. When the labels involved are strings (the server sends its
      class name as a string), that is a pill or the error box; a truthy non-string
      label can only reach the faulting render. */
  lemma SettlementShowsOutcome(s: State, data: Value)
    ensures PredictionArea(Respond(s, data)) != NoPredictionYet || ErrorBox(Respond(s, data)).Some?
    ensures Renderable(s.prediction) && Renderable(OptGet(data, "prediction")) ==>
      PredictionArea(Respond(s, data)).Pill? || ErrorBox(Respond(s, data)).Some?
    ensures PredictionArea(Respond(s, data)).RenderFault? ==>
      !Renderable(s.prediction) || !Renderable(OptGet(data, "prediction"))
    ensures ErrorBox(Fail(s)) == Some(Str(ConnectFailure))
  {
  }
}

=== FILE: wrappers.dfy ===
/** The optional-value type used throughout the model: `None` stands for JavaScript's
    `null` where the source keeps a nullable reference, or for "nothing happened". */
module Wrappers {

  datatype Option<+T> = None | Some(value: T)
}
